=== FILE: README.md ===
# TradePosition: a verified model of one trading position

This project models the `TradePosition` record of a trading bot's position
manager. The record tracks one position from its opening order to its
settlement. The model covers both halves of it:

- **the lifecycle state machine.** The states are `Opening`, `Open`,
  `Closing(reason)`, `Closed(reason)` and `Canceled(reason)`. Every change of
  state goes through `update_state`, which refuses to re-enter the current
  state and applies the tick-counter reset policy. The public operations
  `on_filled`, `on_liquidated`, `request_close`, `cancel` and `ignore` each
  accept only certain states.
- **exact-decimal fill accounting.**
  - A fill on the position's own side increases it. It blends the average
    open price and the take-profit and cut-loss thresholds as amount-weighted
    averages.
  - A fill of any other type goes to `decrease`. It books the fill (only
    `Long` buys, every other type sells) and classifies the new amount as
    closed out (zero), inverted (sign changed) or decreased (sign kept).
    Profit is realised by moving value from the cash account
    (`asset_in_usd`) into `pnl`. The label "decreased" is the code's, not a
    promise: a `HedgeShort` fill on a non-empty `Short` position sells as
    well, so it grows the holding and still realises (price − average)·
    (previous − new amount). On an empty position every counter-fill counts
    as an inversion, because a zero amount has no sign to keep: a
    `HedgeShort` fill on an empty `Short` position flips the type, leaving a
    `Long` that holds a short amount, and `should_take_profit` and
    `should_cut_loss` then compare in the `Long` direction. Likewise a `Long`
    fill on an empty `HedgeLong` position leaves a `HedgeShort` holding a long
    amount. For these reasons the cost-basis results below cover only `Long`
    and `Short` positions and fills.
  - `delete` performs the final settlement.

The read-only risk queries are `should_close` (take-profit before cut-loss),
`should_cancel_order`, `is_cancel_expired`, `should_open_expired` and `pnl`.
`PositionType` and its `opposite` flip come from the crate root.

Layout:

- `base.dfy`: `Option` and the `u32` range.
- `position_type.dfy`: `PositionType` and `Opposite`.
- `position.dfy`: the record, the states, `new`, `update_state` and `update_counter`.
- `fills.dfy`: the fill accounting, down to `delete`.
- `lifecycle.dfy`: `on_liquidated`, `request_close`, `cancel` and `ignore`.
- `risk.dfy`: the queries.
- `accounting.dfy`: multi-call properties of fills.
- `lifecycle_proofs.dfy`: properties of event sequences.

Modelling choices:

- **Numbers.** `Decimal` is modelled as Dafny `real`, which is exact for `+`,
  `-`, `*` and for `/` by a non-zero value.
- **Pure functions.** Every mutating method is a pure function. It returns
  the position as it stands after the call.
- **Public operations.** These return `Outcome`:
  - `Ok(value, pos)` and `Err(pos)` mirror Rust's `Result`. `Err` carries
    whatever was mutated before the error was detected, because
    `on_liquidated` charges its fee before its state check.
  - `Panic(fault)` stands for an aborted call.
- **Internal steps.** These return `Step`, which is `Next(pos)` or
  `Abort(fault)`.
- **Faults.** The model has three ways to panic:
  - re-entering the current state, the `assert!` in `update_state`;
  - blending averages over a zero total weight, a `Decimal` division by
    zero in `increase`;
  - incrementing `tick_count` at `u32::MAX`, which is overflow-checked
    arithmetic.

  The source panics in at least two more ways, both left out (see "Left
  out"): a division by zero in its logging, and `Decimal` overflow in any of
  its arithmetic.

Two global invariants are proved over arbitrary runs:

- **Book value.** Each accepted fill moves the book value
  (`pnl + asset_in_usd`, net of unsettled fees) by exactly the fill's cash
  flow. As a consequence, a position opened fresh and closed by its fills
  realises exactly the net cash of those fills.
- **Cost basis.** For plain (non-hedge) positions fed fills priced at their
  notional, `asset_in_usd == -amount * average_open_price` holds throughout.

## Model

| member | source | states |
|---|---|---|
| PositionTypes.Opposite | src/lib.rs:28-35 | the flip never returns its argument and never crosses between the hedge and the plain variants |
| PositionTypes.OppositeInvolution | src/lib.rs:28-35 | flipping twice gives back the original type |
| PositionTypes.OppositePairs | src/lib.rs:30-33 | Long and Short swap, HedgeLong and HedgeShort swap |
| PositionTypes.OppositeInjective | src/lib.rs:28-35 | distinct types have distinct opposites |
| Positions.New | src/position_manager.rs:115-187 | a new position is Opening with tick 0, the whole order unfilled, invested = price × amount, nothing held, no pnl, fee or thresholds, a zero average and close price; it keeps the id, fund, order id, token, type, ordered and predicted prices, and the three tick maxima the timeout queries read |
| Positions.Transition | src/position_manager.rs:442-462 | only state and tick change; entering Closing or Canceled restarts the count, as does reaching Open from Opening or Canceled; Closing → Open sets the count to the holding maximum; other moves keep it |
| Positions.UpdateState | src/position_manager.rs:442-443 | re-entering the current state panics with that state; any other target performs the transition |
| Positions.UpdateCounter | src/position_manager.rs:542-544 | a tick adds one to the counter and changes nothing else; at `u32::MAX` it panics |
| Fills.UpdateAmount | src/position_manager.rs:510-523 | only Long buys (amount up, cash down); every other type, HedgeLong included, sells |
| Fills.RealizePnl | src/position_manager.rs:525-528 | pnl grows by exactly the realised value and pnl + cash is unchanged |
| Fills.Blend | src/position_manager.rs:347-349 | the blended value times the total weight equals the weighted sum |
| Fills.BlendThreshold | src/position_manager.rs:351-371 | a threshold after an increase is present iff the fill supplies one, is taken over when none was set, and is otherwise the weighted average |
| Fills.Increase | src/position_manager.rs:335-379 | the average and both thresholds are amount-weighted averages with weights \|amount\| and the fill size; amount and cash move by the fill; it panics exactly when the total weight is zero; nothing else changes |
| Fills.Classify | src/position_manager.rs:476-482 | closed out iff the new amount is zero, inverted iff it is non-zero with the sign changed (an empty previous position counts), decreased iff the sign is kept |
| Fills.UpdateAmountAndPnl | src/position_manager.rs:464-508 | books the fill, classifies it, and realises (price − avg)·(prev − new) when decreased, else the whole prior holding marked at the price; pnl + cash moves only by the fill's notional |
| Fills.Delete | src/position_manager.rs:415-440 | an empty Opening position is canceled with pnl untouched; otherwise it closes under a pending Closing reason or the given one, adds amount·price + cash − fee to pnl, zeroes amount and cash, and re-closing with the same reason panics |
| Fills.Decrease | src/position_manager.rs:381-413 | closing out cancels an Opening position as Canceled("CounterTrade") and otherwise settles it as Closed under a pending Closing reason or "CounterTrade": flat, closed at the fill price, pnl + cash moved by the notional less the accumulated fee, and a repeat close with the same reason panics; inverting sets the average to the fill price, replaces both thresholds, flips the type and changes nothing else; decreasing keeps average and thresholds; outside a settlement pnl + cash moves only by the notional |
| Fills.CalculatePnlForUpdate | src/position_manager.rs:495-508 | a decrease prices the units given up against the average; a close-out or inversion marks the whole prior holding at the fill price; when the prior cash account is −amount × average, both come to the gain per unit over the average times the units given up, which for a close-out or inversion is the whole prior amount |
| Fills.UnrealizedPnlOfHolding | src/position_manager.rs:530-532 | marking a holding whose cash is −amount × average gives amount × (price − average), which for a non-empty holding is zero exactly at the average |
| Fills.AccountUnfilled | src/position_manager.rs:200-206 | in Opening or Canceled the unfilled amount drops by the fill, and the state becomes Open with tick 0 exactly when it reaches zero; other states are untouched |
| Fills.OnFilled | src/position_manager.rs:189-249 | a Closed position refuses the fill unchanged (fee included); otherwise the fee is added, the amount moves by exactly the fill, the ordered price follows the average, and among the modelled faults it panics only on a zero-weight increase |
| Lifecycle.OnLiquidated | src/position_manager.rs:251-278 | the fee is charged before anything else; without forcing, only Closing may settle and any other state is an error that keeps the charged fee; forcing settles from any state and panics only when already Closed with the same reason; a settlement records the close price and the prior cash, zeroes amount and cash, and changes nothing else but state, pnl and fee |
| Lifecycle.RequestClose | src/position_manager.rs:280-301 | succeeds exactly from Open, or from Opening with part of the order unfilled, and then records the order id and Closing(reason) with tick 0; otherwise nothing changes |
| Lifecycle.Cancel | src/position_manager.rs:303-329 | an empty Opening is Canceled("Not filled at all"); a partly filled Opening becomes Open with tick 0; Closing becomes Open with the count at the holding maximum; other states are refused unchanged |
| Lifecycle.LiquidationReason | src/position_manager.rs:260-264 | the reason starts with "Liquidated", is exactly that without a detail, and otherwise continues with ", " and the detail |
| Lifecycle.LiquidationReasonInjective | src/position_manager.rs:260-264 | distinct details give distinct Closed reasons |
| Lifecycle.Ignore | src/position_manager.rs:331-333 | moves any state to Canceled("Partially filled") with tick 0, and panics only when it is already there |
| Risk.ShouldTakeProfit | src/position_manager.rs:718-733 | fires iff Open with a take-profit set and the price reached it in the position's direction (up for Long, down for every other type) |
| Risk.ShouldCutLoss | src/position_manager.rs:735-750 | fires iff Open with a cut-loss set and the price crossed it against the position's direction |
| Risk.ShouldClose | src/position_manager.rs:546-556 | TakeProfit iff take-profit fires; CutLoss iff only cut-loss fires; None iff neither does |
| Risk.ShouldCancelOrder | src/position_manager.rs:534-540 | true only in Opening (tick past the open-order maximum) or Closing (tick past the close-order maximum) |
| Risk.IsCancelExpired | src/position_manager.rs:558-564 | true iff Canceled with the tick past the close-order maximum |
| Risk.ShouldOpenExpired | src/position_manager.rs:566-572 | true iff Open with the tick past the holding maximum |
| Risk.Pnl | src/position_manager.rs:574-580 | returns pnl, and a ratio that is 0 when nothing was invested and otherwise times the invested amount gives pnl |
| Accounting.FillShiftsLedger | src/position_manager.rs:189-249 | an accepted fill moves the book value by exactly −direction·notional − fee, and a position it closes is flat |
| Accounting.FillsShiftLedger | src/position_manager.rs:189-249 | over any run of accepted fills the book value moves by the run's total cash flow, and Closed positions stay flat |
| Accounting.ClosedPnlIsNetCashFlow | src/position_manager.rs:415-432 | a fresh position closed by its fills has realised exactly the net cash those fills brought in, fees deducted |
| Accounting.IncreaseKeepsBalanced | src/position_manager.rs:345-373 | an increasing fill priced at its notional keeps cash = −amount × average |
| Accounting.DecreaseKeepsBalanced | src/position_manager.rs:381-413 | a counter-fill priced at its notional keeps the cost-basis invariant, whether it decreases, inverts or closes out |
| Accounting.FairFillKeepsBalanced | src/position_manager.rs:189-249 | any accepted fair fill on a balanced position leaves it balanced |
| Accounting.FairFillsKeepBalanced | src/position_manager.rs:189-249 | fair fills keep the cost-basis invariant over any run |
| Accounting.InversionRealizesOffsetOnly | src/position_manager.rs:396-400 | an over-sized counter-fill flips the type, re-seeds the average and thresholds from the fill, holds the remainder on the other side, and realises profit only on the offset units |
| Accounting.CounterFillOnEmptyInverts | src/position_manager.rs:476-482 | any counter-fill on an empty position is an inversion: the type flips and the fill is held at its price, so a HedgeShort fill leaves an empty Short typed Long with a short amount, and a Long fill leaves an empty HedgeLong typed HedgeShort with a long amount |
| Accounting.TakeProfitLocksGain | src/position_manager.rs:718-733 | on a balanced position whose take-profit sits on the profitable side of the average, a firing take-profit means the holding is in profit |
| Accounting.CutLossRealizesPlannedLoss | src/position_manager.rs:735-750 | when cut-loss fires, the unrealised result is no better than the loss planned at the cut-loss line |
| Accounting.IncreaseGrows | src/position_manager.rs:345-373 | an increasing fill of positive size is accepted and moves the amount further from zero on its own side |
| Accounting.IncreasedByCommutes | src/position_manager.rs:347-371 | two increasing fills applied in either order yield the same position when both thresholds are supplied throughout |
| Accounting.IncreasedTwiceBlends | src/position_manager.rs:347-371 | after two increasing fills the magnitude is the old one plus both sizes, and the average and every threshold carried throughout are the weighted averages over the holding and both fills |
| Accounting.IncreasesCommute | src/position_manager.rs:335-379 | two same-side increases commute, and the result carries the average and thresholds as weighted averages over the holding and both fills |
| LifecycleProofs.EventKeepsSettledFlat | src/position_manager.rs:189-333 | no operation that returns leaves a Closed position holding an amount or cash |
| LifecycleProofs.RunKeepsSettledFlat | src/position_manager.rs:189-333 | over any sequence of events that does not panic, Closed positions stay flat |
| LifecycleProofs.ClosedRefuses | src/position_manager.rs:200-211 | a Closed position refuses fills, close requests and cancels, and none of them changes it |
| LifecycleProofs.TicksAdvance | src/position_manager.rs:542-544 | k ticks add k to the counter and change nothing else, and they panic exactly when the count would pass `u32::MAX` |
| LifecycleProofs.CloseOrderTimesOut | src/position_manager.rs:534-540 | after a close request, the closing order is due for cancellation exactly when more ticks than its timeout have passed |
| LifecycleProofs.OpenOrderTimesOut | src/position_manager.rs:534-540 | a new opening order is due for cancellation exactly when more ticks than its timeout have passed |
| LifecycleProofs.CanceledPositionExpires | src/position_manager.rs:558-564 | after canceling an unfilled opening order, or after ignoring, the position counts as expired exactly when more ticks than the close-order timeout have passed |
| LifecycleProofs.CanceledCloseExpiresOnNextTick | src/position_manager.rs:319-322 | canceling a pending close returns to Open not yet expired, and the next tick makes it expire |
| LifecycleProofs.OpeningFillOpensExactlyWhenFilled | src/position_manager.rs:201-205 | a same-side fill on a pending opening order opens the position exactly when it fills the remainder, restarting the count, and otherwise keeps state and count |
| LifecycleProofs.IgnoreFromAnyState | src/position_manager.rs:331-333 | ignore succeeds from every state but Canceled("Partially filled"), so a second ignore panics |
| LifecycleProofs.LiquidatingClosedChargesFeesAgain | src/position_manager.rs:251-278 | a forced liquidation of a position already Closed for another reason re-closes it and takes every fee paid so far out of pnl once more |

## Left out

- Timestamps are not modelled: `set_open_time`, `set_close_time`, the wall-clock call they make, and the `open_time_str`, `open_timestamp` and `close_time_str` fields. `Transition` keeps the rest of the state change.
- `format_position`, `print_info` and all logging are not modelled. The `current_price` argument of `on_filled`, `increase` and `decrease` only feeds the logs, so it is dropped.
- The panic in the logging is not modelled. When info logging is enabled, `increase` and `decrease` (src/position_manager.rs:375-378, 401-410) call `format_position`, which divides by `asset_in_usd.abs()` and by the price it is given (src/position_manager.rs:777-786). A zero cash account or a zero price then panics with a `Decimal` division by zero. Whether it does depends on the logger configuration, which the model does not see.
- The `Display` impls, the serde derives, the getters and the `OrderType` enum are presentation or serialization only.
- The diagnostic indicator fields (`atr`, `adx`, `rsi`, `stochastic`, `price`, `candle_pattern`, `take_profit_ratio`, `atr_spread`, `risk_reward`, `atr_term`, `last_*`) are left out. They are carried and never computed on, and `new` drops those parameters.
- `trade_chance.rs` and `trad_chance.rs` are not part of this model. They are outside the crate's module tree.
- Rounding and overflow are not modelled: `real` replaces rust_decimal's 96-bit, 28-digit arithmetic, so results that would round are exact here. A result that would overflow the mantissa, which panics in the source (`+`, `-`, `*` and `/` in src/position_manager.rs:202, 221, 347-349, 429-430, 517-527 and 578), is also exact here and does not panic.
- Positions.UpdateCounter: the `u32` increment is modelled as the overflow-checked (debug-build) panic. A release build would wrap to 0 instead.
- Accounting.IncreasesCommute: stated only when the position and both fills carry both thresholds. A fill without a threshold clears it, and taking over a fresh threshold uses the whole new magnitude as its weight, so in those cases the order of fills does matter.

=== FILE: accounting.dfy ===
/**
 * Properties of fill accounting that relate several calls: value
 * conservation over any run of fills, the cost-basis invariant kept by fair
 * fills, inversion, and order-independence of increasing fills.
 */
module Accounting {
  import opened Base
  import opened PositionTypes
  import opened Positions
  import opened Fills
  import opened Risk

  /** One fill event as the exchange reports it. */
  datatype Fill = Fill(side: PositionType, price: real, amount: real, notional: real, fee: real,
                       takeProfit: Option<real>, cutLoss: Option<real>)

  function OnFill(p: TradePosition, f: Fill): Outcome<()> {
    OnFilled(p, f.side, f.price, f.amount, f.notional, f.fee, f.takeProfit, f.cutLoss)
  }

  /** Applies fills in order, stopping at the first one that is not accepted. */
  function ApplyFills(p: TradePosition, fs: seq<Fill>): Outcome<()>
    decreases |fs|
  {
    if |fs| == 0 then Ok((), p)
    else
      match OnFill(p, fs[0])
      case Ok(_, q) => ApplyFills(q, fs[1..])
      case other => other
  }

  /** Cash the fills bring in: sales add their notional, purchases take it away, fees are paid. */
  function CashFlow(fs: seq<Fill>): real
    decreases |fs|
  {
    if |fs| == 0 then 0.0
    else -Direction(fs[0].side) * fs[0].notional - fs[0].fee + CashFlow(fs[1..])
  }

  /**
   * The position's book value: realised profit plus the cash account, net of
   * the fees that settlement has not yet charged to `pnl`.
   */
  function Ledger(p: TradePosition): real {
    if p.state.Closed? then p.pnl + p.assetInUsd else p.pnl + p.assetInUsd - p.fee
  }

  /** Invariant: a closed position holds nothing and its cash account is empty. */
  predicate SettledIsFlat(p: TradePosition) {
    p.state.Closed? ==> Flat(p)
  }

  /** The position once a fill has been counted against the opening order and its fee charged. */
  function Charged(p: TradePosition, f: Fill): TradePosition {
    AccountUnfilled(p, f.amount).(fee := p.fee + f.fee)
  }

  /** The fill booked on its own side (increase) or against it (decrease). */
  function Booked(q: TradePosition, f: Fill): Step {
    if q.positionType == f.side then Increase(q, f.side, f.price, f.takeProfit, f.cutLoss, f.amount, f.notional)
    else Decrease(q, f.side, f.price, f.takeProfit, f.cutLoss, f.amount, f.notional)
  }

  /** An accepted fill is the charge, then the booking, then the ordered price following the average. */
  lemma OnFillStages(p: TradePosition, f: Fill)
    requires OnFill(p, f).Ok?
    ensures !p.state.Closed?
    ensures Booked(Charged(p, f), f).Next?
    ensures var z := Booked(Charged(p, f), f).pos;
            OnFill(p, f).pos == z.(orderedPrice := z.averageOpenPrice)
  {
  }

  /** Charging the fee lowers the book value by the fee and never closes the position. */
  lemma ChargeShiftsLedger(p: TradePosition, f: Fill)
    requires !p.state.Closed?
    ensures !Charged(p, f).state.Closed?
    ensures Ledger(Charged(p, f)) == Ledger(p) - f.fee
  {
  }

  /**
   * A step from an unsettled `q` to `r` that keeps the fee and moves pnl + cash
   * by `-c`, settling the accumulated fee if it closes the position, moves the
   * book value by `-c`.
   */
  lemma LedgerMoves(q: TradePosition, r: TradePosition, c: real)
    requires !q.state.Closed? && r.fee == q.fee
    requires r.state.Closed? ==> r.pnl + r.assetInUsd == q.pnl + q.assetInUsd - c - q.fee
    requires !r.state.Closed? ==> r.pnl + r.assetInUsd == q.pnl + q.assetInUsd - c
    ensures Ledger(r) == Ledger(q) - c
  {
  }

  /** Booking a fill on an unsettled position moves the book value by the fill's cash flow. */
  lemma BookShiftsLedger(q: TradePosition, f: Fill)
    requires !q.state.Closed? && Booked(q, f).Next?
    ensures Ledger(Booked(q, f).pos) == Ledger(q) - Direction(f.side) * f.notional
    ensures SettledIsFlat(Booked(q, f).pos)
  {
    var r := Booked(q, f).pos;
    var c := Direction(f.side) * f.notional;
    if q.positionType == f.side {
      assert r.state == q.state && r.pnl == q.pnl && r.fee == q.fee;
    } else {
      assert r.fee == q.fee;
      assert r.state.Closed? ==> r.pnl + r.assetInUsd == q.pnl + q.assetInUsd - c - q.fee;
    }
    LedgerMoves(q, r, c);
  }

  /**
   * Every accepted fill changes the book value by exactly its cash flow:
   * realising profit only moves value between the cash account and `pnl`.
   */
  lemma FillShiftsLedger(p: TradePosition, f: Fill)
    requires OnFill(p, f).Ok?
    ensures Ledger(OnFill(p, f).pos) == Ledger(p) - Direction(f.side) * f.notional - f.fee
    ensures SettledIsFlat(OnFill(p, f).pos)
  {
    OnFillStages(p, f);
    ChargeShiftsLedger(p, f);
    BookShiftsLedger(Charged(p, f), f);
  }

  /** A run that is accepted throughout accepts its first fill and continues from there. */
  lemma ApplyFillsStep(p: TradePosition, fs: seq<Fill>)
    requires |fs| > 0 && ApplyFills(p, fs).Ok?
    ensures OnFill(p, fs[0]).Ok?
    ensures ApplyFills(p, fs) == ApplyFills(OnFill(p, fs[0]).pos, fs[1..])
  {
  }

  /**
   * Over any run of accepted fills the book value moves by the run's total
   * cash flow, and a position closed by the run is flat.
   */
  lemma {:induction false} FillsShiftLedger(p: TradePosition, fs: seq<Fill>)
    requires ApplyFills(p, fs).Ok?
    requires SettledIsFlat(p)
    ensures Ledger(ApplyFills(p, fs).pos) == Ledger(p) + CashFlow(fs)
    ensures SettledIsFlat(ApplyFills(p, fs).pos)
    decreases |fs|
  {
    if |fs| > 0 {
      ApplyFillsStep(p, fs);
      var q := OnFill(p, fs[0]).pos;
      FillShiftsLedger(p, fs[0]);
      FillsShiftLedger(q, fs[1..]);
      assert CashFlow(fs) == -Direction(fs[0].side) * fs[0].notional - fs[0].fee + CashFlow(fs[1..]);
    }
  }

  /**
   * Realised profit of a position opened fresh and closed by counter-fills is
   * the net cash it received from its fills, less all fees paid.
   */
  lemma ClosedPnlIsNetCashFlow(p: TradePosition, fs: seq<Fill>)
    requires p.state == Opening && Flat(p) && p.pnl == 0.0 && p.fee == 0.0
    requires ApplyFills(p, fs).Ok? && ApplyFills(p, fs).pos.state.Closed?
    ensures ApplyFills(p, fs).pos.pnl == CashFlow(fs)
  {
    FillsShiftLedger(p, fs);
  }

  /** A fill is fair when it is a positive quantity of a plain type, priced exactly at its notional. */
  predicate Fair(f: Fill) {
    !IsHedge(f.side) && f.amount > 0.0 && f.notional == f.amount * f.price
  }

  /**
   * Cost-basis invariant of a plain position: the amount has the sign its
   * type buys in, and the cash account is minus the amount at the average
   * open price.
   */
  predicate Balanced(p: TradePosition) {
    && !IsHedge(p.positionType)
    && Direction(p.positionType) * p.amount >= 0.0
    && p.assetInUsd == -p.amount * p.averageOpenPrice
  }

  lemma DirectionSquare(t: PositionType)
    ensures Direction(t) * Direction(t) == 1.0
  {
  }

  /** The sign of a product from the signs of its factors. */
  lemma ProductSign(x: real, y: real)
    ensures x > 0.0 && y > 0.0 ==> x * y > 0.0
    ensures x < 0.0 && y < 0.0 ==> x * y > 0.0
    ensures x > 0.0 && y < 0.0 ==> x * y < 0.0
    ensures x < 0.0 && y > 0.0 ==> x * y < 0.0
  {
  }

  /** For an amount on the side of direction `d`, its magnitude is `d * m`. */
  lemma AbsAligned(m: real, d: real)
    requires d == 1.0 || d == -1.0
    requires d * m >= 0.0
    ensures Abs(m) == d * m && m == d * Abs(m)
  {
  }

  /** An increasing fair fill keeps the cost basis: the blended average prices the whole holding. */
  lemma IncreaseKeepsBalanced(p: TradePosition, f: Fill)
    requires Balanced(p) && Fair(f) && f.side == p.positionType
    ensures Increase(p, f.side, f.price, f.takeProfit, f.cutLoss, f.amount, f.notional).Next?
    ensures Balanced(Increase(p, f.side, f.price, f.takeProfit, f.cutLoss, f.amount, f.notional).pos)
  {
    var d := Direction(f.side);
    var m, a, price, avg := p.amount, f.amount, f.price, p.averageOpenPrice;
    AbsAligned(m, d);
    var r := Increase(p, f.side, f.price, f.takeProfit, f.cutLoss, f.amount, f.notional).pos;
    var w := Abs(m);
    var avg' := r.averageOpenPrice;
    assert avg' * (w + a) == avg * w + price * a;
    assert r.amount == d * (w + a) by { DirectionSquare(f.side); }
    calc {
      -r.amount * avg';
      -d * (avg' * (w + a));
      -d * (avg * w + price * a);
      -(avg * (d * w)) - d * price * a;
      { assert d * w == m by { DirectionSquare(f.side); } }
      -avg * m - d * (a * price);
      r.assetInUsd;
    }
  }

  /** A fair counter-fill of a plain position is of the opposite direction. */
  lemma CounterDirection(p: TradePosition, f: Fill)
    requires Balanced(p) && Fair(f) && f.side != p.positionType
    ensures Direction(f.side) == -Direction(p.positionType)
    ensures f.side == Opposite(p.positionType)
  {
  }

  /** A fair counter-fill that closes out the position leaves nothing in the cash account. */
  lemma ClosedOutIsBalanced(p: TradePosition, f: Fill, r: TradePosition)
    requires Balanced(p) && Fair(f)
    requires p.amount + Direction(f.side) * f.amount == 0.0
    requires r.amount == 0.0 && r.positionType == p.positionType
    requires !r.state.Closed? ==>
               && r.pnl + r.assetInUsd == p.pnl + p.assetInUsd - Direction(f.side) * f.notional
               && r.pnl == p.pnl + p.amount * f.price + p.assetInUsd
    requires r.state.Closed? ==> Flat(r)
    ensures Balanced(r)
  {
  }

  lemma ClosingOutKeepsBalanced(p: TradePosition, f: Fill)
    requires Balanced(p) && Fair(f) && f.side != p.positionType
    requires p.state != Closed("CounterTrade")
    requires p.amount + Direction(f.side) * f.amount == 0.0
    ensures Decrease(p, f.side, f.price, f.takeProfit, f.cutLoss, f.amount, f.notional).Next?
    ensures Balanced(Decrease(p, f.side, f.price, f.takeProfit, f.cutLoss, f.amount, f.notional).pos)
  {
    ClosedOutIsBalanced(p, f, Decrease(p, f.side, f.price, f.takeProfit, f.cutLoss, f.amount, f.notional).pos);
  }

  /** A fair counter-fill that inverts the position re-seeds the cost basis at the fill price. */
  lemma InvertedIsBalanced(p: TradePosition, f: Fill, r: TradePosition)
    requires Balanced(p) && Fair(f) && f.side != p.positionType
    requires p.amount + Direction(f.side) * f.amount != 0.0
    requires p.amount * (p.amount + Direction(f.side) * f.amount) <= 0.0
    requires r.amount == p.amount + Direction(f.side) * f.amount
    requires r.pnl + r.assetInUsd == p.pnl + p.assetInUsd - Direction(f.side) * f.notional
    requires r.averageOpenPrice == f.price && r.positionType == Opposite(p.positionType)
    requires r.pnl == p.pnl + p.amount * f.price + p.assetInUsd
    ensures Balanced(r)
  {
    CounterDirection(p, f);
    var m, n := p.amount, p.amount + Direction(f.side) * f.amount;
    ProductSign(m, n);
    assert r.assetInUsd == -n * f.price;
  }

  lemma InvertingKeepsBalanced(p: TradePosition, f: Fill)
    requires Balanced(p) && Fair(f) && f.side != p.positionType
    requires p.amount + Direction(f.side) * f.amount != 0.0
    requires p.amount * (p.amount + Direction(f.side) * f.amount) <= 0.0
    ensures Decrease(p, f.side, f.price, f.takeProfit, f.cutLoss, f.amount, f.notional).Next?
    ensures Balanced(Decrease(p, f.side, f.price, f.takeProfit, f.cutLoss, f.amount, f.notional).pos)
  {
    InvertedIsBalanced(p, f, Decrease(p, f.side, f.price, f.takeProfit, f.cutLoss, f.amount, f.notional).pos);
  }

  /** A fair counter-fill that only decreases the position keeps its average and its cost basis. */
  lemma ReducedIsBalanced(p: TradePosition, f: Fill, r: TradePosition)
    requires Balanced(p) && Fair(f) && f.side != p.positionType
    requires p.amount * (p.amount + Direction(f.side) * f.amount) > 0.0
    requires r.pnl == p.pnl + (f.price - p.averageOpenPrice) * (p.amount - (p.amount + Direction(f.side) * f.amount))
    requires r.pnl + r.assetInUsd == p.pnl + p.assetInUsd - Direction(f.side) * f.notional
    requires r == p.(amount := p.amount + Direction(f.side) * f.amount, assetInUsd := r.assetInUsd, pnl := r.pnl)
    ensures Balanced(r)
  {
    var d := Direction(p.positionType);
    var e := Direction(f.side);
    var m, a, price, avg := p.amount, f.amount, f.price, p.averageOpenPrice;
    var n := m + e * a;
    assert r.assetInUsd == -m * avg - e * (a * price) - (price - avg) * (-e * a);
    assert r.assetInUsd == -n * avg;
    assert d * m > 0.0;
    assert d * n > 0.0 by {
      DirectionSquare(p.positionType);
      assert (d * m) * (d * n) == (d * d) * (m * n);
    }
  }

  lemma DecreasingKeepsBalanced(p: TradePosition, f: Fill)
    requires Balanced(p) && Fair(f) && f.side != p.positionType
    requires p.amount * (p.amount + Direction(f.side) * f.amount) > 0.0
    ensures Decrease(p, f.side, f.price, f.takeProfit, f.cutLoss, f.amount, f.notional).Next?
    ensures Balanced(Decrease(p, f.side, f.price, f.takeProfit, f.cutLoss, f.amount, f.notional).pos)
  {
    ReducedIsBalanced(p, f, Decrease(p, f.side, f.price, f.takeProfit, f.cutLoss, f.amount, f.notional).pos);
  }

  /** An opposite-side fair fill keeps the cost basis whether it decreases, inverts or closes the position. */
  lemma DecreaseKeepsBalanced(p: TradePosition, f: Fill)
    requires Balanced(p) && Fair(f) && f.side != p.positionType
    requires p.state != Closed("CounterTrade")
    ensures Decrease(p, f.side, f.price, f.takeProfit, f.cutLoss, f.amount, f.notional).Next?
    ensures Balanced(Decrease(p, f.side, f.price, f.takeProfit, f.cutLoss, f.amount, f.notional).pos)
  {
    var n := p.amount + Direction(f.side) * f.amount;
    if n == 0.0 {
      ClosingOutKeepsBalanced(p, f);
    } else if p.amount * n <= 0.0 {
      InvertingKeepsBalanced(p, f);
    } else {
      DecreasingKeepsBalanced(p, f);
    }
  }

  /** Balanced depends only on the type, the amount, the cash account and the average price. */
  lemma BalancedFrame(p: TradePosition, q: TradePosition)
    requires q.positionType == p.positionType && q.amount == p.amount
    requires q.assetInUsd == p.assetInUsd && q.averageOpenPrice == p.averageOpenPrice
    ensures Balanced(q) == Balanced(p)
  {
  }

  /** Every accepted fair fill on a balanced position leaves it balanced. */
  lemma FairFillKeepsBalanced(p: TradePosition, f: Fill)
    requires Balanced(p) && Fair(f)
    requires OnFill(p, f).Ok?
    ensures Balanced(OnFill(p, f).pos)
  {
    OnFillStages(p, f);
    var q := Charged(p, f);
    BalancedFrame(p, q);
    if q.positionType == f.side {
      IncreaseKeepsBalanced(q, f);
    } else {
      DecreaseKeepsBalanced(q, f);
    }
    var z := Booked(q, f).pos;
    BalancedFrame(z, z.(orderedPrice := z.averageOpenPrice));
  }

  /** Fair fills keep the cost-basis invariant over any run. */
  lemma {:induction false} FairFillsKeepBalanced(p: TradePosition, fs: seq<Fill>)
    requires Balanced(p)
    requires forall i :: 0 <= i < |fs| ==> Fair(fs[i])
    requires ApplyFills(p, fs).Ok?
    ensures Balanced(ApplyFills(p, fs).pos)
    decreases |fs|
  {
    if |fs| > 0 {
      ApplyFillsStep(p, fs);
      FairFillKeepsBalanced(p, fs[0]);
      FairFillsKeepBalanced(OnFill(p, fs[0]).pos, fs[1..]);
    }
  }

  /** A counter-fill larger than the holding leaves a non-zero remainder of the other sign. */
  lemma OverSizedFillFlipsSign(p: TradePosition, f: Fill)
    requires Balanced(p) && Fair(f) && f.side == Opposite(p.positionType)
    requires f.amount > Direction(p.positionType) * p.amount
    ensures var n := p.amount + Direction(f.side) * f.amount;
            && n != 0.0 && p.amount * n <= 0.0
            && Direction(f.side) * n == f.amount - Direction(p.positionType) * p.amount
  {
    var d := Direction(p.positionType);
    var e := Direction(f.side);
    assert e == -d;
    var m, a := p.amount, f.amount;
    var n := m + e * a;
    assert d * n == d * m - a by { DirectionSquare(p.positionType); }
    assert d * n < 0.0;
    assert m * n <= 0.0 by {
      assert m * n == (d * m) * (d * n) by { DirectionSquare(p.positionType); }
    }
    assert e * n == a - d * m by { DirectionSquare(f.side); }
  }

  /** `q` holds what `p` holds: same type, amount, cash account, average, realised profit and thresholds. */
  predicate SameHolding(p: TradePosition, q: TradePosition) {
    && q.positionType == p.positionType && q.amount == p.amount && q.assetInUsd == p.assetInUsd
    && q.averageOpenPrice == p.averageOpenPrice && q.pnl == p.pnl
    && q.takeProfitPrice == p.takeProfitPrice && q.cutLossPrice == p.cutLossPrice
  }

  /** Charging a fill touches neither the holding, the cash account, the averages nor realised profit. */
  lemma ChargeKeepsHolding(p: TradePosition, f: Fill)
    ensures SameHolding(p, Charged(p, f))
  {
  }

  /**
   * `z` is `q` after an inverting counter-fill `f`: the remainder is held on
   * the other side at the fill price, under the fill's thresholds, and the
   * whole prior holding was realised at the fill price.
   */
  predicate InvertedBy(q: TradePosition, f: Fill, z: TradePosition) {
    && z.amount == q.amount + Direction(f.side) * f.amount
    && z.averageOpenPrice == f.price
    && z.takeProfitPrice == f.takeProfit && z.cutLossPrice == f.cutLoss
    && z.positionType == Opposite(q.positionType)
    && z.pnl + z.assetInUsd == q.pnl + q.assetInUsd - Direction(f.side) * f.notional
    && z.pnl == q.pnl + q.amount * f.price + q.assetInUsd
  }

  /** A counter-fill that flips the sign of the amount is booked as an inversion. */
  lemma BookedInverts(q: TradePosition, f: Fill)
    requires q.positionType != f.side
    requires var n := q.amount + Direction(f.side) * f.amount;
             n != 0.0 && q.amount * n <= 0.0
    ensures Booked(q, f).Next? && InvertedBy(q, f, Booked(q, f).pos)
  {
  }

  /** A fill whose booking inverts the charged position is accepted, and its outcome is that inversion. */
  lemma AcceptedInversion(p: TradePosition, f: Fill)
    requires !p.state.Closed? && p.positionType != f.side
    requires var n := p.amount + Direction(f.side) * f.amount;
             n != 0.0 && p.amount * n <= 0.0
    ensures OnFill(p, f).Ok? && InvertedBy(Charged(p, f), f, OnFill(p, f).pos)
  {
    var q := Charged(p, f);
    ChargeKeepsHolding(p, f);
    BookedInverts(q, f);
    assert OnFill(p, f).Ok?;
    OnFillStages(p, f);
  }

  /** What an inverting booking `r` of such a fill leaves, stated against the position `p` before it. */
  lemma InvertedOutcome(p: TradePosition, f: Fill, q: TradePosition, r: TradePosition)
    requires Balanced(p) && Fair(f) && f.side == Opposite(p.positionType)
    requires f.amount > Direction(p.positionType) * p.amount
    requires SameHolding(p, q) && InvertedBy(q, f, r)
    ensures && r.positionType == f.side
            && r.averageOpenPrice == f.price
            && r.takeProfitPrice == f.takeProfit && r.cutLossPrice == f.cutLoss
            && Direction(f.side) * r.amount == f.amount - Direction(p.positionType) * p.amount
            && r.pnl == p.pnl + p.amount * (f.price - p.averageOpenPrice)
            && r.assetInUsd == -r.amount * f.price
  {
    OverSizedFillFlipsSign(p, f);
    OppositeInvolution(f.side);
  }

  /**
   * An over-sized fair counter-fill inverts a balanced position: the type
   * flips, the average becomes the fill price, the remainder is held on the
   * other side, and profit is realised only on the units that offset the
   * prior holding.
   */
  lemma InversionRealizesOffsetOnly(p: TradePosition, f: Fill)
    requires Balanced(p) && Fair(f) && !p.state.Closed?
    requires f.side == Opposite(p.positionType)
    requires f.amount > Direction(p.positionType) * p.amount
    ensures OnFill(p, f).Ok?
    ensures var r := OnFill(p, f).pos;
            && r.positionType == f.side
            && r.averageOpenPrice == f.price
            && r.takeProfitPrice == f.takeProfit && r.cutLossPrice == f.cutLoss
            && Direction(f.side) * r.amount == f.amount - Direction(p.positionType) * p.amount
            && r.pnl == p.pnl + p.amount * (f.price - p.averageOpenPrice)
            && r.assetInUsd == -r.amount * f.price
  {
    OverSizedFillFlipsSign(p, f);
    AcceptedInversion(p, f);
    ChargeKeepsHolding(p, f);
    InvertedOutcome(p, f, Charged(p, f), OnFill(p, f).pos);
  }

  /**
   * A counter-fill on an empty position counts as an inversion, whatever its
   * side: the type flips and the fill is held at its own price. A `HedgeShort`
   * fill on an empty `Short` position therefore leaves a `Long` holding a
   * short amount, and a `Long` fill on an empty `HedgeLong` position a
   * `HedgeShort` holding a long amount.
   */
  lemma CounterFillOnEmptyInverts(p: TradePosition, f: Fill)
    requires !p.state.Closed? && p.amount == 0.0
    requires f.side != p.positionType && f.amount > 0.0
    ensures OnFill(p, f).Ok?
    ensures var r := OnFill(p, f).pos;
            && r.positionType == Opposite(p.positionType)
            && r.amount == Direction(f.side) * f.amount
            && r.averageOpenPrice == f.price
            && r.pnl == p.pnl + p.assetInUsd
    ensures p.positionType == Short && f.side == HedgeShort ==>
              OnFill(p, f).pos.positionType == Long && OnFill(p, f).pos.amount < 0.0
    ensures p.positionType == HedgeLong && f.side == Long ==>
              OnFill(p, f).pos.positionType == HedgeShort && OnFill(p, f).pos.amount > 0.0
  {
    ChargeKeepsHolding(p, f);
    AcceptedInversion(p, f);
  }

  /**
   * With a take-profit line on the profitable side of the entry price,
   * hitting it means the position is in profit at that price.
   */
  lemma TakeProfitLocksGain(p: TradePosition, price: real)
    requires Balanced(p) && ShouldTakeProfit(p, price)
    requires Direction(p.positionType) * (p.takeProfitPrice.value - p.averageOpenPrice) >= 0.0
    ensures UnrealizedPnl(price, p.amount, p.assetInUsd) >= 0.0
  {
    var d := Direction(p.positionType);
    DirectionSquare(p.positionType);
    assert d * (price - p.averageOpenPrice) >= 0.0;
    calc {
      UnrealizedPnl(price, p.amount, p.assetInUsd);
      p.amount * (price - p.averageOpenPrice);
      (d * d) * p.amount * (price - p.averageOpenPrice);
      (d * p.amount) * (d * (price - p.averageOpenPrice));
    }
  }

  /**
   * When the cut-loss line fires, the unrealised loss is at least the loss
   * the line was placed to accept.
   */
  lemma CutLossRealizesPlannedLoss(p: TradePosition, price: real)
    requires Balanced(p) && ShouldCutLoss(p, price)
    ensures UnrealizedPnl(price, p.amount, p.assetInUsd)
            <= p.amount * (p.cutLossPrice.value - p.averageOpenPrice)
  {
    var d := Direction(p.positionType);
    var cl := p.cutLossPrice.value;
    DirectionSquare(p.positionType);
    assert d * (cl - price) >= 0.0;
    calc {
      p.amount * (cl - p.averageOpenPrice) - UnrealizedPnl(price, p.amount, p.assetInUsd);
      p.amount * (cl - price);
      (d * d) * p.amount * (cl - price);
      (d * p.amount) * (d * (cl - price));
    }
  }

  /** An increasing fill of positive size moves the amount further from zero on its own side. */
  lemma IncreaseGrows(p: TradePosition, t: PositionType, price: real, takeProfit: Option<real>,
                      cutLoss: Option<real>, a: real, notional: real)
    requires Direction(t) * p.amount >= 0.0 && a > 0.0
    ensures var s := Increase(p, t, price, takeProfit, cutLoss, a, notional);
            && s.Next?
            && Abs(s.pos.amount) == Abs(p.amount) + a
            && Direction(t) * s.pos.amount >= 0.0
            && s.pos.positionType == p.positionType
  {
    var d := Direction(t);
    AbsAligned(p.amount, d);
    DirectionSquare(t);
    var s := Increase(p, t, price, takeProfit, cutLoss, a, notional);
    assert s.pos.amount == d * (Abs(p.amount) + a);
  }

  /** `y` at weight `w` carries `x0` at weight `w0` plus `c` at weight `a`. */
  predicate Weighted(x0: real, w0: real, c: real, a: real, y: real, w: real) {
    w == w0 + a && y * w == x0 * w0 + c * a
  }

  /**
   * `r` is `p` after an increasing fill `f`: the fill's size joins the
   * magnitude, the cash account pays the notional, and the average (and each
   * threshold that both sides carry) times the magnitude grows by the fill's
   * value times its size; nothing else changes.
   */
  predicate IncreasedBy(p: TradePosition, f: Fill, r: TradePosition) {
    && r == p.(averageOpenPrice := r.averageOpenPrice, takeProfitPrice := r.takeProfitPrice,
               cutLossPrice := r.cutLossPrice, amount := r.amount, assetInUsd := r.assetInUsd)
    && r.amount == p.amount + Direction(f.side) * f.amount
    && r.assetInUsd == p.assetInUsd - Direction(f.side) * f.notional
    && Direction(p.positionType) * r.amount >= 0.0
    && Weighted(p.averageOpenPrice, Abs(p.amount), f.price, f.amount, r.averageOpenPrice, Abs(r.amount))
    && (p.takeProfitPrice.Some? && f.takeProfit.Some? ==>
          r.takeProfitPrice.Some?
          && Weighted(p.takeProfitPrice.value, Abs(p.amount), f.takeProfit.value, f.amount,
                      r.takeProfitPrice.value, Abs(r.amount)))
    && (p.cutLossPrice.Some? && f.cutLoss.Some? ==>
          r.cutLossPrice.Some?
          && Weighted(p.cutLossPrice.value, Abs(p.amount), f.cutLoss.value, f.amount,
                      r.cutLossPrice.value, Abs(r.amount)))
  }

  /** An increasing fill of positive size on the position's own side is accepted and weighs in as described. */
  lemma IncreaseWeights(p: TradePosition, f: Fill)
    requires f.side == p.positionType
    requires Direction(p.positionType) * p.amount >= 0.0 && f.amount > 0.0
    ensures var s := Increase(p, f.side, f.price, f.takeProfit, f.cutLoss, f.amount, f.notional);
            s.Next? && IncreasedBy(p, f, s.pos)
  {
    IncreaseGrows(p, f.side, f.price, f.takeProfit, f.cutLoss, f.amount, f.notional);
  }

  /** Adding two weighted contributions one after the other gives the same average in either order. */
  lemma WeightsCommute(x0: real, w0: real, c1: real, a1: real, c2: real, a2: real,
                       y1: real, w1: real, y12: real, w12: real,
                       y2: real, w2: real, y21: real, w21: real)
    requires w0 >= 0.0 && a1 > 0.0 && a2 > 0.0
    requires Weighted(x0, w0, c1, a1, y1, w1) && Weighted(y1, w1, c2, a2, y12, w12)
    requires Weighted(x0, w0, c2, a2, y2, w2) && Weighted(y2, w2, c1, a1, y21, w21)
    ensures w12 == w21 && y12 == y21
  {
    assert y12 * w12 == y21 * w12;
    assert (y12 - y21) * w12 == 0.0;
  }

  /** `y` at weight `w` carries `x0` at weight `w0` plus `c1` at weight `a1` plus `c2` at weight `a2`. */
  predicate WeightedTwice(x0: real, w0: real, c1: real, a1: real, c2: real, a2: real, y: real, w: real) {
    w == w0 + a1 + a2 && y * w == x0 * w0 + c1 * a1 + c2 * a2
  }

  /**
   * `r` carries the average, and each threshold the position and both fills
   * carry, as the weighted average over the holding of `p` and the fills
   * `f1` and `f2`, with weights the holding's magnitude and the fill sizes.
   */
  predicate BlendedOverBoth(p: TradePosition, f1: Fill, f2: Fill, r: TradePosition) {
    && WeightedTwice(p.averageOpenPrice, Abs(p.amount), f1.price, f1.amount, f2.price, f2.amount,
                     r.averageOpenPrice, Abs(r.amount))
    && (p.takeProfitPrice.Some? && f1.takeProfit.Some? && f2.takeProfit.Some? ==>
          && r.takeProfitPrice.Some?
          && WeightedTwice(p.takeProfitPrice.value, Abs(p.amount), f1.takeProfit.value, f1.amount,
                           f2.takeProfit.value, f2.amount, r.takeProfitPrice.value, Abs(r.amount)))
    && (p.cutLossPrice.Some? && f1.cutLoss.Some? && f2.cutLoss.Some? ==>
          && r.cutLossPrice.Some?
          && WeightedTwice(p.cutLossPrice.value, Abs(p.amount), f1.cutLoss.value, f1.amount,
                           f2.cutLoss.value, f2.amount, r.cutLossPrice.value, Abs(r.amount)))
  }

  /** Two weighted contributions added in turn give the weighted average over both. */
  lemma WeightsChain(x0: real, w0: real, c1: real, a1: real, c2: real, a2: real,
                     y1: real, w1: real, y12: real, w12: real)
    requires Weighted(x0, w0, c1, a1, y1, w1) && Weighted(y1, w1, c2, a2, y12, w12)
    ensures WeightedTwice(x0, w0, c1, a1, c2, a2, y12, w12)
  {
  }

  /** Two increasing fills in turn blend the average and thresholds over both fills. */
  lemma IncreasedTwiceBlends(p: TradePosition, f1: Fill, f2: Fill, a: TradePosition, ab: TradePosition)
    requires IncreasedBy(p, f1, a) && IncreasedBy(a, f2, ab)
    ensures BlendedOverBoth(p, f1, f2, ab)
  {
    WeightsChain(p.averageOpenPrice, Abs(p.amount), f1.price, f1.amount, f2.price, f2.amount,
                 a.averageOpenPrice, Abs(a.amount), ab.averageOpenPrice, Abs(ab.amount));
    if p.takeProfitPrice.Some? && f1.takeProfit.Some? && f2.takeProfit.Some? {
      WeightsChain(p.takeProfitPrice.value, Abs(p.amount), f1.takeProfit.value, f1.amount,
                   f2.takeProfit.value, f2.amount,
                   a.takeProfitPrice.value, Abs(a.amount), ab.takeProfitPrice.value, Abs(ab.amount));
    }
    if p.cutLossPrice.Some? && f1.cutLoss.Some? && f2.cutLoss.Some? {
      WeightsChain(p.cutLossPrice.value, Abs(p.amount), f1.cutLoss.value, f1.amount,
                   f2.cutLoss.value, f2.amount,
                   a.cutLossPrice.value, Abs(a.amount), ab.cutLossPrice.value, Abs(ab.amount));
    }
  }

  /** Two increasing fills, taken in either order, end in the same position. */
  lemma IncreasedByCommutes(p: TradePosition, f1: Fill, f2: Fill,
                            a: TradePosition, ab: TradePosition, b: TradePosition, ba: TradePosition)
    requires f1.amount > 0.0 && f2.amount > 0.0
    requires a.positionType == p.positionType && b.positionType == p.positionType
    requires p.takeProfitPrice.Some? && f1.takeProfit.Some? && f2.takeProfit.Some?
    requires p.cutLossPrice.Some? && f1.cutLoss.Some? && f2.cutLoss.Some?
    requires IncreasedBy(p, f1, a) && IncreasedBy(a, f2, ab)
    requires IncreasedBy(p, f2, b) && IncreasedBy(b, f1, ba)
    ensures ab == ba
  {
    WeightsCommute(p.averageOpenPrice, Abs(p.amount), f1.price, f1.amount, f2.price, f2.amount,
                   a.averageOpenPrice, Abs(a.amount), ab.averageOpenPrice, Abs(ab.amount),
                   b.averageOpenPrice, Abs(b.amount), ba.averageOpenPrice, Abs(ba.amount));
    WeightsCommute(p.takeProfitPrice.value, Abs(p.amount), f1.takeProfit.value, f1.amount,
                   f2.takeProfit.value, f2.amount,
                   a.takeProfitPrice.value, Abs(a.amount), ab.takeProfitPrice.value, Abs(ab.amount),
                   b.takeProfitPrice.value, Abs(b.amount), ba.takeProfitPrice.value, Abs(ba.amount));
    WeightsCommute(p.cutLossPrice.value, Abs(p.amount), f1.cutLoss.value, f1.amount,
                   f2.cutLoss.value, f2.amount,
                   a.cutLossPrice.value, Abs(a.amount), ab.cutLossPrice.value, Abs(ab.amount),
                   b.cutLossPrice.value, Abs(b.amount), ba.cutLossPrice.value, Abs(ba.amount));
  }

  /**
   * Two increasing fills give the same position whichever arrives first: the
   * average is the amount-weighted average over both fills, and so is each
   * threshold that the position and both fills carry.
   */
  lemma IncreasesCommute(p: TradePosition, f1: Fill, f2: Fill)
    requires f1.side == p.positionType && f2.side == p.positionType
    requires Direction(p.positionType) * p.amount >= 0.0
    requires f1.amount > 0.0 && f2.amount > 0.0
    requires p.takeProfitPrice.Some? && f1.takeProfit.Some? && f2.takeProfit.Some?
    requires p.cutLossPrice.Some? && f1.cutLoss.Some? && f2.cutLoss.Some?
    ensures var a := Increase(p, f1.side, f1.price, f1.takeProfit, f1.cutLoss, f1.amount, f1.notional);
            var b := Increase(p, f2.side, f2.price, f2.takeProfit, f2.cutLoss, f2.amount, f2.notional);
            && a.Next? && b.Next?
            && Increase(a.pos, f2.side, f2.price, f2.takeProfit, f2.cutLoss, f2.amount, f2.notional)
               == Increase(b.pos, f1.side, f1.price, f1.takeProfit, f1.cutLoss, f1.amount, f1.notional)
    ensures var a := Increase(p, f1.side, f1.price, f1.takeProfit, f1.cutLoss, f1.amount, f1.notional).pos;
            BlendedOverBoth(p, f1, f2,
                            Increase(a, f2.side, f2.price, f2.takeProfit, f2.cutLoss, f2.amount, f2.notional).pos)
  {
    IncreaseWeights(p, f1);
    IncreaseWeights(p, f2);
    var a := Increase(p, f1.side, f1.price, f1.takeProfit, f1.cutLoss, f1.amount, f1.notional).pos;
    var b := Increase(p, f2.side, f2.price, f2.takeProfit, f2.cutLoss, f2.amount, f2.notional).pos;
    IncreaseWeights(a, f2);
    IncreaseWeights(b, f1);
    var ab := Increase(a, f2.side, f2.price, f2.takeProfit, f2.cutLoss, f2.amount, f2.notional).pos;
    var ba := Increase(b, f1.side, f1.price, f1.takeProfit, f1.cutLoss, f1.amount, f1.notional).pos;
    IncreasedByCommutes(p, f1, f2, a, ab, b, ba);
    IncreasedTwiceBlends(p, f1, f2, a, ab);
  }
}

=== FILE: base.dfy ===
/** Small value types the position model shares: Rust's `Option` and `u32`. */
module Base {

  /** Rust's `Option<T>`. */
  datatype Option<+T> = None | Some(value: T)

  /** The largest value of Rust's `u32`. */
  const U32_MAX: int := 0xFFFF_FFFF

  /** Rust's `u32`: the tick counter and its configured maxima are of this width. */
  type U32 = n: int | 0 <= n < 0x1_0000_0000
}

=== FILE: fills.dfy ===
/**
 * Exact fill accounting: a same-side fill increases the position and blends
 * its averages; an opposite-side fill decreases, closes or inverts it and
 * realises profit by moving value from the cash account into `pnl`.
 */
module Fills {
  import opened Base
  import opened PositionTypes
  import opened Positions

  /** How an opposite-side fill left the position (`ClosedOut` is the source's `Closed`). */
  datatype UpdateResult = ClosedOut | Inverted | Decreased

  function Abs(x: real): real {
    if x < 0.0 then -x else x
  }

  function Signum(x: real): int {
    if x > 0.0 then 1 else if x < 0.0 then -1 else 0
  }

  /** Sign of a fill of type `t` in `amount`: only Long buys; every other type sells. */
  function Direction(t: PositionType): real {
    if t == Long then 1.0 else -1.0
  }

  /** Value of the holding marked at `price`, plus the cash account. */
  function UnrealizedPnl(price: real, amount: real, assetInUsd: real): real {
    amount * price + assetInUsd
  }

  /**
   * Marking a holding bought at an average price `avg` (so its cash account
   * is `-amount * avg`) at `price` yields the holding's gain per unit times
   * its size.
   */
  lemma UnrealizedPnlOfHolding(price: real, amount: real, avg: real)
    ensures UnrealizedPnl(price, amount, -amount * avg) == amount * (price - avg)
    ensures amount != 0.0 ==>
              (UnrealizedPnl(price, amount, -amount * avg) == 0.0 <==> price == avg)
  {
    if amount != 0.0 && UnrealizedPnl(price, amount, -amount * avg) == 0.0 {
      assert amount * (price - avg) == 0.0;
    }
  }

  /** Books a fill of `a` units costing `notional`: a Long fill buys, any other type sells. */
  function UpdateAmount(p: TradePosition, t: PositionType, a: real, notional: real): (r: TradePosition)
    ensures r.amount == p.amount + Direction(t) * a
    ensures r.assetInUsd == p.assetInUsd - Direction(t) * notional
    ensures t == HedgeLong ==> r.amount == p.amount - a && r.assetInUsd == p.assetInUsd + notional
    ensures r == p.(amount := r.amount, assetInUsd := r.assetInUsd)
  {
    if t == Long then
      p.(amount := p.amount + a, assetInUsd := p.assetInUsd - notional)
    else
      p.(amount := p.amount - a, assetInUsd := p.assetInUsd + notional)
  }

  /** Moves `x` from the cash account into realised profit. */
  function RealizePnl(p: TradePosition, x: real): (r: TradePosition)
    ensures r.pnl - p.pnl == x
    ensures r.pnl + r.assetInUsd == p.pnl + p.assetInUsd
    ensures r == p.(pnl := r.pnl, assetInUsd := r.assetInUsd)
  {
    p.(pnl := p.pnl + x, assetInUsd := p.assetInUsd - x)
  }

  /** The weighted average of `x` (weight `wx`) and `y` (weight `wy`). */
  function Blend(x: real, wx: real, y: real, wy: real): (r: real)
    requires wx + wy != 0.0
    ensures r * (wx + wy) == x * wx + y * wy
  {
    (x * wx + y * wy) / (wx + wy)
  }

  /**
   * A risk threshold after an increasing fill: cleared when the fill supplies
   * none, taken over when there was none, otherwise blended with the fill's.
   */
  function BlendThreshold(current: Option<real>, supplied: Option<real>, wx: real, wy: real): (r: Option<real>)
    requires wx + wy != 0.0
    ensures r.Some? <==> supplied.Some?
    ensures current.None? ==> r == supplied
    ensures current.Some? && supplied.Some? ==>
              r.value * (wx + wy) == current.value * wx + supplied.value * wy
  {
    match supplied
    case None => None
    case Some(v) =>
      match current
      case None => Some(v)
      case Some(c) => Some(Blend(c, wx, v, wy))
  }

  /**
   * A same-side fill: the average open price and both thresholds become
   * amount-weighted averages of the old values (weight |amount|) and the
   * fill's (weight a); a zero total weight panics.
   */
  function Increase(p: TradePosition, t: PositionType, price: real, takeProfit: Option<real>,
                    cutLoss: Option<real>, a: real, notional: real): (r: Step)
    ensures r.Abort? <==> Abs(p.amount) + a == 0.0
    ensures r.Abort? ==> r.fault == DivisionByZero
    ensures r.Next? ==>
              && r.pos.averageOpenPrice * (Abs(p.amount) + a) == p.averageOpenPrice * Abs(p.amount) + price * a
              && r.pos.amount == p.amount + Direction(t) * a
              && r.pos.assetInUsd == p.assetInUsd - Direction(t) * notional
    ensures r.Next? ==>
              && (r.pos.takeProfitPrice.Some? <==> takeProfit.Some?)
              && (p.takeProfitPrice.None? ==> r.pos.takeProfitPrice == takeProfit)
              && (p.takeProfitPrice.Some? && takeProfit.Some? ==>
                    r.pos.takeProfitPrice.value * (Abs(p.amount) + a)
                    == p.takeProfitPrice.value * Abs(p.amount) + takeProfit.value * a)
    ensures r.Next? ==>
              && (r.pos.cutLossPrice.Some? <==> cutLoss.Some?)
              && (p.cutLossPrice.None? ==> r.pos.cutLossPrice == cutLoss)
              && (p.cutLossPrice.Some? && cutLoss.Some? ==>
                    r.pos.cutLossPrice.value * (Abs(p.amount) + a)
                    == p.cutLossPrice.value * Abs(p.amount) + cutLoss.value * a)
    ensures r.Next? ==>
              r.pos == p.(averageOpenPrice := r.pos.averageOpenPrice, takeProfitPrice := r.pos.takeProfitPrice,
                          cutLossPrice := r.pos.cutLossPrice, amount := r.pos.amount, assetInUsd := r.pos.assetInUsd)
  {
    var w := Abs(p.amount);
    if w + a == 0.0 then
      Abort(DivisionByZero)
    else
      var q := p.(averageOpenPrice := Blend(p.averageOpenPrice, w, price, a),
                  takeProfitPrice := BlendThreshold(p.takeProfitPrice, takeProfit, w, a),
                  cutLossPrice := BlendThreshold(p.cutLossPrice, cutLoss, w, a));
      Next(UpdateAmount(q, t, a, notional))
  }

  /**
   * Classifies an opposite-side fill by the amount before (`prev`) and after
   * (`next`): closed when nothing is left, inverted when the sign flipped (an
   * empty position counts as flipping), decreased otherwise.
   */
  function Classify(prev: real, next: real): (r: UpdateResult)
    ensures r.ClosedOut? <==> next == 0.0
    ensures r.Inverted? <==> next != 0.0 && prev * next <= 0.0
    ensures r.Decreased? <==> prev * next > 0.0
  {
    if next == 0.0 then ClosedOut
    else if Signum(prev) != Signum(next) then Inverted
    else Decreased
  }

  /**
   * Profit realised by an opposite-side fill: the decremented slice priced
   * against the average when decreasing, otherwise the whole prior holding
   * marked at the fill price. `q` is the position after booking the fill.
   */
  function CalculatePnlForUpdate(res: UpdateResult, q: TradePosition, prevAmount: real,
                                 price: real, prevAssetInUsd: real): (r: real)
    ensures res.Decreased? ==> r == (price - q.averageOpenPrice) * (prevAmount - q.amount)
    ensures !res.Decreased? ==> r == prevAmount * price + prevAssetInUsd
    ensures prevAssetInUsd == -prevAmount * q.averageOpenPrice ==>
              r == (price - q.averageOpenPrice) * (prevAmount - (if res.Decreased? then q.amount else 0.0))
  {
    match res
    case Decreased => (price - q.averageOpenPrice) * (prevAmount - q.amount)
    case _ => UnrealizedPnl(price, prevAmount, prevAssetInUsd)
  }

  /** Books an opposite-side fill, classifies it and realises its profit. */
  function UpdateAmountAndPnl(p: TradePosition, t: PositionType, a: real, notional: real, price: real)
    : (r: (UpdateResult, TradePosition))
    ensures r.1.amount == p.amount + Direction(t) * a
    ensures r.0 == Classify(p.amount, r.1.amount)
    ensures r.1.pnl + r.1.assetInUsd == p.pnl + p.assetInUsd - Direction(t) * notional
    ensures r.0.Decreased? ==> r.1.pnl == p.pnl + (price - p.averageOpenPrice) * (p.amount - r.1.amount)
    ensures !r.0.Decreased? ==> r.1.pnl == p.pnl + p.amount * price + p.assetInUsd
    ensures r.1 == p.(amount := r.1.amount, assetInUsd := r.1.assetInUsd, pnl := r.1.pnl)
  {
    var q := UpdateAmount(p, t, a, notional);
    var res := Classify(p.amount, q.amount);
    (res, RealizePnl(q, CalculatePnlForUpdate(res, q, p.amount, price, p.assetInUsd)))
  }

  /**
   * Final settlement at `price`. An Opening position that holds nothing is
   * merely canceled. Otherwise the position closes (keeping a pending
   * Closing reason), the holding is marked at `price` into `pnl` net of all
   * fees, and amount and cash account are zeroed. Re-closing with the same
   * reason panics.
   */
  function Delete(p: TradePosition, price: real, reason: string): (r: Step)
    ensures r.Abort? <==> p.state == Closed(reason)
    ensures r.Abort? ==> r.fault == SameState(p.state)
    ensures p.state == Opening && p.amount == 0.0 ==>
              r == Next(p.(state := Canceled(reason), tickCount := 0))
    ensures !(p.state == Opening && p.amount == 0.0) && r.Next? ==>
              && r.pos.state == Closed(if p.state.Closing? then p.state.reason else reason)
              && Flat(r.pos)
              && r.pos.pnl == p.pnl + p.amount * price + p.assetInUsd - p.fee
              && r.pos == p.(state := r.pos.state, pnl := r.pos.pnl, amount := 0.0, assetInUsd := 0.0,
                             closePrice := price, closeAssetInUsd := p.assetInUsd)
  {
    if p.state == Opening && p.amount == 0.0 then
      Next(Transition(p, Canceled(reason)))
    else
      var closing := if p.state.Closing? then p.state.reason else reason;
      match UpdateState(p, Closed(closing))
      case Abort(f) => Abort(f)
      case Next(q) =>
        Next(q.(closeAssetInUsd := q.assetInUsd,
                closePrice := price,
                pnl := q.pnl + UnrealizedPnl(price, q.amount, q.assetInUsd) - q.fee,
                amount := 0.0,
                assetInUsd := 0.0))
  }

  /**
   * An opposite-side fill. Closing out settles the position; inverting
   * re-seeds the average at the fill price, takes the fill's thresholds as
   * they are and flips the type; decreasing keeps average and thresholds.
   */
  function Decrease(p: TradePosition, t: PositionType, price: real, takeProfit: Option<real>,
                    cutLoss: Option<real>, a: real, notional: real): (r: Step)
    ensures var n := p.amount + Direction(t) * a;
            r.Abort? <==> n == 0.0 && p.state == Closed("CounterTrade")
    ensures var n := p.amount + Direction(t) * a;
            n == 0.0 && r.Next? ==>
              && r.pos.amount == 0.0
              && r.pos.state == (if p.state == Opening then Canceled("CounterTrade")
                                 else Closed(if p.state.Closing? then p.state.reason else "CounterTrade"))
              && (r.pos.state.Closed? ==> Flat(r.pos) && r.pos.closePrice == price)
    ensures r.Next? ==> r.pos.fee == p.fee
    ensures var n := p.amount + Direction(t) * a;
            n == 0.0 && r.Next? && r.pos.state.Closed? ==>
              r.pos.pnl == p.pnl + p.assetInUsd - Direction(t) * notional - p.fee
    ensures var n := p.amount + Direction(t) * a;
            n == 0.0 && r.Next? && !r.pos.state.Closed? ==>
              r.pos.pnl + r.pos.assetInUsd == p.pnl + p.assetInUsd - Direction(t) * notional
    ensures var n := p.amount + Direction(t) * a;
            n != 0.0 ==>
              && r.Next?
              && r.pos.amount == n
              && r.pos.state == p.state
              && r.pos.pnl + r.pos.assetInUsd == p.pnl + p.assetInUsd - Direction(t) * notional
    ensures var n := p.amount + Direction(t) * a;
            n != 0.0 && p.amount * n <= 0.0 ==>
              && r.Next?
              && r.pos.averageOpenPrice == price
              && r.pos.takeProfitPrice == takeProfit
              && r.pos.cutLossPrice == cutLoss
              && r.pos.positionType == Opposite(p.positionType)
              && r.pos.pnl == p.pnl + p.amount * price + p.assetInUsd
              && r.pos == p.(amount := n, assetInUsd := r.pos.assetInUsd, pnl := r.pos.pnl,
                             averageOpenPrice := price, takeProfitPrice := takeProfit,
                             cutLossPrice := cutLoss, positionType := Opposite(p.positionType))
    ensures var n := p.amount + Direction(t) * a;
            p.amount * n > 0.0 ==>
              && r.Next?
              && r.pos.pnl == p.pnl + (price - p.averageOpenPrice) * (p.amount - n)
              && r.pos == p.(amount := n, assetInUsd := r.pos.assetInUsd, pnl := r.pos.pnl)
  {
    var (res, q) := UpdateAmountAndPnl(p, t, a, notional, price);
    match res
    case ClosedOut => Delete(q, price, "CounterTrade")
    case Inverted =>
      Next(q.(averageOpenPrice := price,
              takeProfitPrice := takeProfit,
              cutLossPrice := cutLoss,
              positionType := Opposite(q.positionType)))
    case Decreased => Next(q)
  }

  /**
   * Books the fill against the opening order: in Opening or Canceled the
   * unfilled amount drops by `a`, and reaching exactly zero opens the position.
   */
  function AccountUnfilled(p: TradePosition, a: real): (r: TradePosition)
    ensures p.state.Opening? || p.state.Canceled? ==>
              && r.unfilledAmount == p.unfilledAmount - a
              && (r.state.Open? <==> r.unfilledAmount == 0.0)
              && (r.state.Open? ==> r == p.(unfilledAmount := 0.0, state := Open, tickCount := 0))
              && (!r.state.Open? ==> r == p.(unfilledAmount := r.unfilledAmount))
    ensures !(p.state.Opening? || p.state.Canceled?) ==> r == p
    ensures r == p.(unfilledAmount := r.unfilledAmount, state := r.state, tickCount := r.tickCount)
    ensures !r.state.Closed? <==> !p.state.Closed?
  {
    if p.state.Opening? || p.state.Canceled? then
      var q := p.(unfilledAmount := p.unfilledAmount - a);
      if q.unfilledAmount == 0.0 then Transition(q, Open) else q
    else
      p
  }

  /**
   * A fill of `a` units of type `t` at `price` costing `notional`, with fee
   * `fee` and the thresholds it brings. Refused, with nothing changed, once
   * the position is Closed; otherwise it counts against the opening order,
   * charges the fee and increases or decreases the position.
   */
  function OnFilled(p: TradePosition, t: PositionType, price: real, a: real, notional: real,
                    fee: real, takeProfit: Option<real>, cutLoss: Option<real>): (r: Outcome<()>)
    ensures r.Err? <==> p.state.Closed?
    ensures r.Err? ==> r.pos == p
    ensures r.Panic? <==> !p.state.Closed? && p.positionType == t && Abs(p.amount) + a == 0.0
    ensures r.Panic? ==> r.fault == DivisionByZero
    ensures r.Ok? ==> r.pos.fee == p.fee + fee
    ensures r.Ok? ==> r.pos.amount == p.amount + Direction(t) * a
    ensures r.Ok? ==> r.pos.orderedPrice == r.pos.averageOpenPrice
    ensures r.Ok? && (p.state.Opening? || p.state.Canceled?) ==>
              r.pos.unfilledAmount == p.unfilledAmount - a
    ensures r.Ok? && !(p.state.Opening? || p.state.Canceled?) ==>
              r.pos.unfilledAmount == p.unfilledAmount
  {
    if p.state.Closed? then
      Err(p)
    else
      var q := AccountUnfilled(p, a);
      var q := q.(fee := q.fee + fee);
      var s := if q.positionType == t then Increase(q, t, price, takeProfit, cutLoss, a, notional)
               else Decrease(q, t, price, takeProfit, cutLoss, a, notional);
      match s
      case Abort(f) => Panic(f)
      case Next(z) => Ok((), z.(orderedPrice := z.averageOpenPrice))
  }
}

=== FILE: lifecycle.dfy ===
/** The lifecycle operations other than fills: liquidation, close requests, cancellation and ignore. */
module Lifecycle {
  import opened Base
  import opened Positions
  import opened Fills

  /** The Closed reason a forced liquidation records. */
  function LiquidationReason(detail: Option<string>): (r: string)
    ensures |r| >= 10 && r[..10] == "Liquidated"
    ensures detail.None? <==> |r| == 10
    ensures detail.Some? ==> |r| >= 12 && r[10..12] == ", " && r[12..] == detail.value
  {
    match detail
    case Some(d) => "Liquidated, " + d
    case None => "Liquidated"
  }

  /** Distinct liquidation details give distinct Closed reasons. */
  lemma LiquidationReasonInjective(x: Option<string>, y: Option<string>)
    ensures LiquidationReason(x) == LiquidationReason(y) <==> x == y
  {
    if LiquidationReason(x) == LiquidationReason(y) && x.Some? && y.Some? {
      assert x.value == LiquidationReason(x)[12..];
    }
  }

  function Settle(p: TradePosition, price: real, reason: string): (r: Outcome<()>)
  {
    match Delete(p, price, reason)
    case Abort(f) => Panic(f)
    case Next(q) => Ok((), q)
  }

  /**
   * The exchange reports the position closed at `closePrice`. The fee is
   * charged first. A forced liquidation settles from any state; otherwise
   * only a pending close may settle, under its own reason, and any other
   * state is an error that still keeps the charged fee.
   */
  function OnLiquidated(p: TradePosition, closePrice: real, fee: real, doLiquidate: bool,
                        liquidatedReason: Option<string>): (r: Outcome<()>)
    ensures r.Err? <==> !doLiquidate && !p.state.Closing?
    ensures r.Err? ==> r.pos == p.(fee := p.fee + fee)
    ensures r.Panic? <==> doLiquidate && p.state == Closed(LiquidationReason(liquidatedReason))
    ensures r.Ok? ==> r.pos.amount == 0.0 && r.pos.fee == p.fee + fee
    ensures r.Ok? && p.state == Opening && p.amount == 0.0 ==>
              r.pos == p.(fee := p.fee + fee, state := Canceled(LiquidationReason(liquidatedReason)), tickCount := 0)
    ensures r.Ok? && !(p.state == Opening && p.amount == 0.0) ==>
              && Flat(r.pos)
              && r.pos.pnl == p.pnl + p.amount * closePrice + p.assetInUsd - (p.fee + fee)
              && r.pos.state == Closed(if p.state.Closing? then p.state.reason
                                       else LiquidationReason(liquidatedReason))
              && r.pos == p.(fee := p.fee + fee, state := r.pos.state, pnl := r.pos.pnl,
                             amount := 0.0, assetInUsd := 0.0, closePrice := closePrice,
                             closeAssetInUsd := p.assetInUsd)
  {
    var q := p.(fee := p.fee + fee);
    if doLiquidate then
      Settle(q, closePrice, LiquidationReason(liquidatedReason))
    else if q.state.Closing? then
      Settle(q, closePrice, q.state.reason)
    else
      Err(q)
  }

  /**
   * Asks to close: allowed from Open, or from Opening while part of the
   * opening order is still unfilled. Records the closing order id and the
   * reason and restarts the tick counter.
   */
  function RequestClose(p: TradePosition, orderId: string, reason: string): (r: Outcome<()>)
    ensures !r.Panic?
    ensures r.Ok? <==> p.state.Open? || (p.state.Opening? && p.unfilledAmount != 0.0)
    ensures r.Err? ==> r.pos == p
    ensures r.Ok? ==> r.pos == p.(orderId := orderId, state := Closing(reason), tickCount := 0)
  {
    if p.state.Open? || (p.state.Opening? && p.unfilledAmount != 0.0) then
      Ok((), Transition(p.(orderId := orderId), Closing(reason)))
    else
      Err(p)
  }

  /**
   * Cancels the pending order: an unfilled opening order cancels the
   * position, a partly filled one leaves it Open, and a pending close
   * returns it to Open with the counter at the holding maximum.
   */
  function Cancel(p: TradePosition): (r: Outcome<CancelResult>)
    ensures !r.Panic?
    ensures r.Ok? <==> p.state.Opening? || p.state.Closing?
    ensures r.Err? ==> r.pos == p
    ensures r.Ok? && r.value == OpeningCanceled <==> p.state.Opening? && p.amount == 0.0
    ensures r.Ok? && r.value == PartiallyFilled <==> p.state.Opening? && p.amount != 0.0
    ensures r.Ok? && r.value == ClosingCanceled <==> p.state.Closing?
    ensures r.Ok? && r.value == OpeningCanceled ==>
              r.pos == p.(state := Canceled("Not filled at all"), tickCount := 0)
    ensures r.Ok? && r.value == PartiallyFilled ==> r.pos == p.(state := Open, tickCount := 0)
    ensures r.Ok? && r.value == ClosingCanceled ==> r.pos == p.(state := Open, tickCount := p.openTickCountMax)
  {
    match p.state
    case Opening =>
      if p.amount == 0.0 then Ok(OpeningCanceled, Transition(p, Canceled("Not filled at all")))
      else Ok(PartiallyFilled, Transition(p, Open))
    case Closing(_) => Ok(ClosingCanceled, Transition(p, Open))
    case _ => Err(p)
  }

  /** Gives up on a partly filled position from any state; doing it twice panics. */
  function Ignore(p: TradePosition): (r: Step)
    ensures r.Abort? <==> p.state == Canceled("Partially filled")
    ensures r.Next? ==> r.pos == p.(state := Canceled("Partially filled"), tickCount := 0)
  {
    UpdateState(p, Canceled("Partially filled"))
  }
}

=== FILE: lifecycle_proofs.dfy ===
/**
 * Properties of the lifecycle state machine over sequences of events: the
 * settled-is-flat invariant, Closed refusing fills, close requests and
 * cancels, the opening-order bookkeeping, and the tick-driven timeouts.
 */
module LifecycleProofs {
  import opened Base
  import opened PositionTypes
  import opened Positions
  import opened Lifecycle
  import opened Risk
  import opened Accounting

  /** Something that happens to a position: an exchange report, a request of the strategy, or a tick. */
  datatype Event =
    | FillReport(fill: Fill)
    | LiquidationReport(closePrice: real, fee: real, force: bool, detail: Option<string>)
    | CloseRequest(orderId: string, reason: string)
    | CancelRequest
    | IgnoreRequest
    | Tick

  function FromStep(s: Step): Outcome<()> {
    match s
    case Next(q) => Ok((), q)
    case Abort(f) => Panic(f)
  }

  /** The position's public operation for one event. */
  function Apply(p: TradePosition, e: Event): Outcome<()> {
    match e
    case FillReport(f) => OnFill(p, f)
    case LiquidationReport(price, fee, force, detail) => OnLiquidated(p, price, fee, force, detail)
    case CloseRequest(orderId, reason) => RequestClose(p, orderId, reason)
    case CancelRequest =>
      (match Cancel(p)
       case Ok(_, q) => Ok((), q)
       case Err(q) => Err(q)
       case Panic(f) => Panic(f))
    case IgnoreRequest => FromStep(Ignore(p))
    case Tick => FromStep(UpdateCounter(p))
  }

  /**
   * Applies events in order. A refused operation (`Err`) is reported to the
   * caller and the run goes on with the position as it was left; a panic
   * ends the run.
   */
  function Run(p: TradePosition, es: seq<Event>): Step
    decreases |es|
  {
    if |es| == 0 then Next(p)
    else
      match Apply(p, es[0])
      case Panic(f) => Abort(f)
      case Ok(_, q) => Run(q, es[1..])
      case Err(q) => Run(q, es[1..])
  }

  /** No event that returns leaves a Closed position holding anything. */
  lemma EventKeepsSettledFlat(p: TradePosition, e: Event)
    requires SettledIsFlat(p)
    requires !Apply(p, e).Panic?
    ensures SettledIsFlat(Apply(p, e).pos)
  {
    match e
    case FillReport(f) =>
      if OnFill(p, f).Ok? {
        FillShiftsLedger(p, f);
      }
    case LiquidationReport(price, fee, force, detail) =>
    case CloseRequest(orderId, reason) =>
    case CancelRequest =>
    case IgnoreRequest =>
    case Tick =>
  }

  /** Over any run that does not panic, a Closed position is flat. */
  lemma {:induction false} RunKeepsSettledFlat(p: TradePosition, es: seq<Event>)
    requires SettledIsFlat(p)
    requires Run(p, es).Next?
    ensures SettledIsFlat(Run(p, es).pos)
    decreases |es|
  {
    if |es| > 0 {
      EventKeepsSettledFlat(p, es[0]);
      RunKeepsSettledFlat(Apply(p, es[0]).pos, es[1..]);
    }
  }

  /** A Closed position refuses fills, close requests and cancels, and none of them changes it. */
  lemma ClosedRefuses(p: TradePosition, f: Fill, orderId: string, reason: string)
    requires p.state.Closed?
    ensures OnFill(p, f) == Err(p)
    ensures RequestClose(p, orderId, reason) == Err(p)
    ensures Cancel(p) == Err(p)
  {
  }

  /** `k` ticks in a row. */
  function Ticks(p: TradePosition, k: nat): Step
    decreases k
  {
    if k == 0 then Next(p)
    else
      match UpdateCounter(p)
      case Abort(f) => Abort(f)
      case Next(q) => Ticks(q, k - 1)
  }

  /** `k` ticks add `k` to the counter and nothing else, unless the counter would pass its maximum. */
  lemma {:induction false} TicksAdvance(p: TradePosition, k: nat)
    ensures Ticks(p, k).Next? <==> p.tickCount + k <= U32_MAX
    ensures Ticks(p, k).Next? ==> Ticks(p, k).pos == p.(tickCount := p.tickCount + k)
    ensures Ticks(p, k).Abort? ==> Ticks(p, k).fault == CounterOverflow
    decreases k
  {
    if k > 0 {
      if p.tickCount < U32_MAX {
        TicksAdvance(p.(tickCount := p.tickCount + 1), k - 1);
      }
    }
  }

  /** After a close request, the closing order is due for cancellation exactly once its timeout has passed. */
  lemma CloseOrderTimesOut(p: TradePosition, orderId: string, reason: string, k: nat)
    requires RequestClose(p, orderId, reason).Ok?
    requires k <= U32_MAX
    ensures var q := RequestClose(p, orderId, reason).pos;
            && Ticks(q, k).Next?
            && (ShouldCancelOrder(Ticks(q, k).pos) <==> k > p.closeOrderTickCountMax)
  {
    TicksAdvance(RequestClose(p, orderId, reason).pos, k);
  }

  /** After an opening order is placed, it is due for cancellation exactly once its timeout has passed. */
  lemma OpenOrderTimesOut(id: U32, fundName: string, orderId: string, price: real, amount: real,
                          openOrderMax: U32, closeOrderMax: U32, openMax: U32,
                          tokenName: string, t: PositionType, predictedPrice: real, k: nat)
    requires k <= U32_MAX
    ensures var p := New(id, fundName, orderId, price, amount, openOrderMax, closeOrderMax, openMax,
                         tokenName, t, predictedPrice);
            && Ticks(p, k).Next?
            && (ShouldCancelOrder(Ticks(p, k).pos) <==> k > openOrderMax)
  {
    TicksAdvance(New(id, fundName, orderId, price, amount, openOrderMax, closeOrderMax, openMax,
                     tokenName, t, predictedPrice), k);
  }

  /**
   * A canceled position, whether its unfilled opening order was canceled or
   * it was ignored, counts as expired exactly once more ticks than the
   * close-order timeout have passed.
   */
  lemma CanceledPositionExpires(p: TradePosition, k: nat)
    requires k <= U32_MAX
    ensures p.state.Opening? && p.amount == 0.0 ==>
              var q := Cancel(p).pos;
              && Cancel(p) == Ok(OpeningCanceled, q)
              && Ticks(q, k).Next?
              && (IsCancelExpired(Ticks(q, k).pos) <==> k > p.closeOrderTickCountMax)
    ensures Ignore(p).Next? ==>
              var q := Ignore(p).pos;
              && Ticks(q, k).Next?
              && (IsCancelExpired(Ticks(q, k).pos) <==> k > p.closeOrderTickCountMax)
  {
    if p.state.Opening? && p.amount == 0.0 {
      TicksAdvance(Cancel(p).pos, k);
    }
    if Ignore(p).Next? {
      TicksAdvance(Ignore(p).pos, k);
    }
  }

  /**
   * Canceling a pending close returns the position to Open with the counter
   * at the holding maximum, so the very next tick makes it expire.
   */
  lemma CanceledCloseExpiresOnNextTick(p: TradePosition)
    requires p.state.Closing?
    requires p.openTickCountMax < U32_MAX
    ensures Cancel(p).Ok? && Cancel(p).value == ClosingCanceled
    ensures var q := Cancel(p).pos;
            && !ShouldOpenExpired(q)
            && UpdateCounter(q).Next?
            && ShouldOpenExpired(UpdateCounter(q).pos)
  {
  }

  /**
   * A fill on the position's own side while the opening order is pending
   * opens the position exactly when it fills the order's remainder, with the
   * counter restarted; otherwise the state is left as it was.
   */
  lemma OpeningFillOpensExactlyWhenFilled(p: TradePosition, f: Fill)
    requires p.state.Opening? || p.state.Canceled?
    requires f.side == p.positionType
    requires OnFill(p, f).Ok?
    ensures var r := OnFill(p, f).pos;
            && r.unfilledAmount == p.unfilledAmount - f.amount
            && (r.state == Open <==> p.unfilledAmount == f.amount)
            && (r.state == Open ==> r.tickCount == 0)
            && (r.state != Open ==> r.state == p.state && r.tickCount == p.tickCount)
  {
    OnFillStages(p, f);
  }

  /** Ignoring a position gives it up from any state, a Closed one included, and only a repeat panics. */
  lemma IgnoreFromAnyState(p: TradePosition)
    ensures Ignore(p).Next? <==> p.state != Canceled("Partially filled")
    ensures Ignore(p).Next? ==> Run(p, [IgnoreRequest]) == Ignore(p)
    ensures Ignore(p).Next? ==> Run(p, [IgnoreRequest, IgnoreRequest]).Abort?
  {
    var q := Ignore(p);
    if q.Next? {
      assert Run(p, [IgnoreRequest]) == Run(q.pos, []);
      assert [IgnoreRequest, IgnoreRequest][1..] == [IgnoreRequest];
      assert Ignore(q.pos).Abort?;
    }
  }

  /**
   * A forced liquidation report for a position already Closed for another
   * reason settles it again: nothing is held, yet every fee paid so far,
   * the new one included, is taken out of the realised profit once more.
   */
  lemma LiquidatingClosedChargesFeesAgain(p: TradePosition, price: real, fee: real, detail: Option<string>)
    requires p.state.Closed? && Flat(p)
    requires p.state != Closed(LiquidationReason(detail))
    ensures OnLiquidated(p, price, fee, true, detail).Ok?
    ensures var r := OnLiquidated(p, price, fee, true, detail).pos;
            && r.state == Closed(LiquidationReason(detail))
            && r.fee == p.fee + fee
            && r.pnl == p.pnl - (p.fee + fee)
  {
  }
}

=== FILE: position.dfy ===
/**
 * The trade position record, its lifecycle states, and the primitive state
 * transition with its tick-counter reset policy.
 *
 * Money-bearing fields are exact `real`s. Mutating operations are pure
 * functions returning the position as it stands after the call.
 */
module Positions {
  import opened Base
  import opened PositionTypes

  /** Lifecycle of a position; the string is a free-text reason. */
  datatype State =
    | Opening
    | Open
    | Closing(reason: string)
    | Closed(reason: string)
    | Canceled(reason: string)

  /** Why the risk checks ask for the position to be closed. */
  datatype ReasonForClose = Liquidated | Expired | TakeProfit | CutLoss | Other(text: string)

  /** What a successful `cancel` did. */
  datatype CancelResult = OpeningCanceled | ClosingCanceled | PartiallyFilled

  /** Why a call would panic instead of returning. */
  datatype Fault =
    | SameState(state: State)   // the assertion that a transition changes the state
    | DivisionByZero            // blending averages with a zero total weight
    | CounterOverflow           // incrementing a `u32` tick counter past its maximum

  datatype TradePosition = TradePosition(
    id: U32,
    fundName: string,
    orderId: string,
    orderedPrice: real,
    unfilledAmount: real,
    investedAmount: real,
    state: State,
    tokenName: string,
    tickCount: U32,
    openOrderTickCountMax: U32,
    closeOrderTickCountMax: U32,
    openTickCountMax: U32,
    averageOpenPrice: real,
    positionType: PositionType,
    predictedPrice: real,
    takeProfitPrice: Option<real>,
    cutLossPrice: Option<real>,
    closePrice: real,
    closeAssetInUsd: real,
    amount: real,          // signed net filled quantity
    assetInUsd: real,      // cash account: falls when buying, rises when selling
    pnl: real,             // realised profit and loss
    fee: real)             // fees paid so far

  /** Result of an internal step that cannot return an error, only panic. */
  datatype Step = Next(pos: TradePosition) | Abort(fault: Fault)

  /**
   * Result of a public mutator: `Ok` and `Err` mirror Rust's `Result`, each
   * carrying the position afterwards (an `Err` keeps whatever was mutated
   * before the error was detected); `Panic` stands for an aborted call.
   */
  datatype Outcome<T> =
    | Ok(value: T, pos: TradePosition)
    | Err(pos: TradePosition)
    | Panic(fault: Fault)

  /** A position is flat when it holds nothing and its cash account is empty. */
  predicate Flat(p: TradePosition) {
    p.amount == 0.0 && p.assetInUsd == 0.0
  }

  /** A fresh position for an opening order of `orderedAmount` at `orderedPrice`. */
  function New(
    id: U32, fundName: string, orderId: string, orderedPrice: real, orderedAmount: real,
    openOrderTickCountMax: U32, closeOrderTickCountMax: U32, openTickCountMax: U32,
    tokenName: string, positionType: PositionType, predictedPrice: real): (r: TradePosition)
    ensures r.state == Opening && r.tickCount == 0
    ensures r.unfilledAmount == orderedAmount && r.investedAmount == orderedPrice * orderedAmount
    ensures Flat(r) && r.pnl == 0.0 && r.fee == 0.0
    ensures r.takeProfitPrice.None? && r.cutLossPrice.None?
    ensures r.positionType == positionType && r.orderedPrice == orderedPrice
    ensures r.openOrderTickCountMax == openOrderTickCountMax
    ensures r.closeOrderTickCountMax == closeOrderTickCountMax
    ensures r.openTickCountMax == openTickCountMax
    ensures r.averageOpenPrice == 0.0 && r.closePrice == 0.0 && r.closeAssetInUsd == 0.0
    ensures && r.id == id && r.fundName == fundName && r.orderId == orderId
            && r.tokenName == tokenName && r.predictedPrice == predictedPrice
  {
    TradePosition(
      id, fundName, orderId, orderedPrice, orderedAmount, orderedPrice * orderedAmount,
      Opening, tokenName, 0, openOrderTickCountMax, closeOrderTickCountMax, openTickCountMax,
      0.0, positionType, predictedPrice, None, None, 0.0, 0.0, 0.0, 0.0, 0.0, 0.0)
  }

  /**
   * Moves to state `s`, which must differ from the current one, applying the
   * tick-counter policy: entering Closing or Canceled restarts the count, as
   * does the first entry into Open; leaving Closing for Open sets the count to
   * the holding maximum, so the position is due for expiry on the next tick.
   */
  function Transition(p: TradePosition, s: State): (r: TradePosition)
    requires s != p.state
    ensures r == p.(state := s, tickCount := r.tickCount)
    ensures s.Closing? || s.Canceled? ==> r.tickCount == 0
    ensures s.Open? && (p.state.Opening? || p.state.Canceled?) ==> r.tickCount == 0
    ensures s.Open? && p.state.Closing? ==> r.tickCount == p.openTickCountMax
    ensures s.Closed? || s.Opening? || (s.Open? && p.state.Closed?) ==> r.tickCount == p.tickCount
  {
    var tick: U32 :=
      match s
      case Closing(_) => 0
      case Canceled(_) => 0
      case Open =>
        (match p.state
         case Opening => 0
         case Canceled(_) => 0
         case Closing(_) => p.openTickCountMax
         case _ => p.tickCount)
      case _ => p.tickCount;
    p.(state := s, tickCount := tick)
  }

  /** The checked transition: re-entering the current state panics. */
  function UpdateState(p: TradePosition, s: State): (r: Step)
    ensures r.Abort? <==> s == p.state
    ensures r.Abort? ==> r.fault == SameState(s)
    ensures r.Next? ==> r.pos == Transition(p, s)
  {
    if s == p.state then Abort(SameState(s)) else Next(Transition(p, s))
  }

  /** One tick of the driving loop; the `u32` counter may not pass its maximum. */
  function UpdateCounter(p: TradePosition): (r: Step)
    ensures r.Abort? <==> p.tickCount == U32_MAX
    ensures r.Abort? ==> r.fault == CounterOverflow
    ensures r.Next? ==> r.pos == p.(tickCount := p.tickCount + 1)
  {
    if p.tickCount == U32_MAX then Abort(CounterOverflow) else Next(p.(tickCount := p.tickCount + 1))
  }
}

=== FILE: position_type.dfy ===
/** The directional stance of a position and the flip used when a counter-fill inverts it. */
module PositionTypes {

  datatype PositionType = Long | Short | HedgeLong | HedgeShort

  predicate IsHedge(t: PositionType) {
    t.HedgeLong? || t.HedgeShort?
  }

  /** The stance a position takes after an over-sized counter-fill. */
  function Opposite(t: PositionType): (r: PositionType)
    ensures r != t
    ensures IsHedge(r) == IsHedge(t)
  {
    match t
    case Long => Short
    case Short => Long
    case HedgeLong => HedgeShort
    case HedgeShort => HedgeLong
  }

  /** Flipping twice gives back the original stance. */
  lemma OppositeInvolution(t: PositionType)
    ensures Opposite(Opposite(t)) == t
  {
  }

  /** Long and Short are swapped, and so are the two hedge variants. */
  lemma OppositePairs()
    ensures Opposite(Long) == Short && Opposite(Short) == Long
    ensures Opposite(HedgeLong) == HedgeShort && Opposite(HedgeShort) == HedgeLong
  {
  }

  /** Opposite is a bijection: distinct stances have distinct opposites. */
  lemma OppositeInjective(s: PositionType, t: PositionType)
    ensures Opposite(s) == Opposite(t) <==> s == t
  {
    OppositeInvolution(s);
    OppositeInvolution(t);
  }
}

=== FILE: risk.dfy ===
/** Read-only risk and timeout queries over a position, and its profit report. */
module Risk {
  import opened Base
  import opened PositionTypes
  import opened Positions
  import opened Fills

  /**
   * The price has reached the take-profit line, only while Open. The
   * comparison follows the position's direction: upward for Long, downward
   * for every other type.
   */
  function ShouldTakeProfit(p: TradePosition, price: real): (r: bool)
    ensures r <==> p.state == Open && p.takeProfitPrice.Some?
                   && Direction(p.positionType) * (price - p.takeProfitPrice.value) >= 0.0
  {
    if p.state != Open then false
    else
      match p.takeProfitPrice
      case Some(tp) => if p.positionType == Long then price >= tp else price <= tp
      case None => false
  }

  /** The price has crossed the cut-loss line against the position, only while Open. */
  function ShouldCutLoss(p: TradePosition, price: real): (r: bool)
    ensures r <==> p.state == Open && p.cutLossPrice.Some?
                   && Direction(p.positionType) * (p.cutLossPrice.value - price) >= 0.0
  {
    if p.state != Open then false
    else
      match p.cutLossPrice
      case Some(cl) => if p.positionType == Long then price <= cl else price >= cl
      case None => false
  }

  /** The close decision: take-profit wins over cut-loss when both fire. */
  function ShouldClose(p: TradePosition, price: real): (r: Option<ReasonForClose>)
    ensures r.Some? ==> p.state == Open
    ensures r == Some(TakeProfit) <==> ShouldTakeProfit(p, price)
    ensures r == Some(CutLoss) <==> !ShouldTakeProfit(p, price) && ShouldCutLoss(p, price)
    ensures r.None? <==> !ShouldTakeProfit(p, price) && !ShouldCutLoss(p, price)
  {
    if ShouldTakeProfit(p, price) then Some(TakeProfit)
    else if ShouldCutLoss(p, price) then Some(CutLoss)
    else None
  }

  /** A pending order has outlived its timeout: the opening one in Opening, the closing one in Closing. */
  function ShouldCancelOrder(p: TradePosition): (r: bool)
    ensures r ==> p.state.Opening? || p.state.Closing?
    ensures p.state.Opening? ==> (r <==> p.tickCount > p.openOrderTickCountMax)
    ensures p.state.Closing? ==> (r <==> p.tickCount > p.closeOrderTickCountMax)
  {
    match p.state
    case Opening => p.tickCount > p.openOrderTickCountMax
    case Closing(_) => p.tickCount > p.closeOrderTickCountMax
    case _ => false
  }

  /** A canceled position has waited longer than the close-order timeout. */
  function IsCancelExpired(p: TradePosition): (r: bool)
    ensures r <==> p.state.Canceled? && p.tickCount > p.closeOrderTickCountMax
  {
    if p.state.Canceled? then p.tickCount > p.closeOrderTickCountMax else false
  }

  /** An open position has been held longer than the holding maximum. */
  function ShouldOpenExpired(p: TradePosition): (r: bool)
    ensures r <==> p.state == Open && p.tickCount > p.openTickCountMax
  {
    if p.state.Open? then p.tickCount > p.openTickCountMax else false
  }

  /** Realised profit and its ratio to the invested amount (0 when nothing was invested). */
  function Pnl(p: TradePosition): (r: (real, real))
    ensures r.0 == p.pnl
    ensures p.investedAmount == 0.0 ==> r.1 == 0.0
    ensures p.investedAmount != 0.0 ==> r.1 * p.investedAmount == p.pnl
  {
    if p.investedAmount == 0.0 then (p.pnl, 0.0) else (p.pnl, p.pnl / p.investedAmount)
  }
}
